=== FILE: README.md ===
# Account store of the Flask user API, in Dafny

This project models the account service of a small Flask API: registration,
login, password recovery by a one-time code sent by email or SMS, password
reset with that code, the public user listing, profile update and delete.
It also models the generator that produces the recovery codes.

Each HTTP handler of `app.py` is a pure function from a store and a request
to a reply (status and message) and the store the handler commits. The
`User` table is a `map<nat, Account>` plus the database's auto-increment
counter. The password hash is a parameter `hash: string -> Digest`, and a
password checks against a digest exactly when the digest is its hash. The
random source is the generator's six draws, each an index into the
62-symbol alphabet. `Codigo.Generate` is a pure function of those draws and
sees no account state.

Files:
- `wrappers.dfy`: `Option`.
- `codigo.dfy`: the recovery-code generator (`Utils/codigo.py`).
- `accounts.dfy`: the `Account` row, the store, the invariant (unique
  emails, unique usernames, well-formed pending codes) and the row lookups.
- `app.dfy`: the handlers and their per-call properties.
- `lifecycle.dfy`: invariant preservation, arbitrary request traces, the
  recover / reset / login round trip and a worked scenario.

In these places the code behaves differently from what a reader of the API might expect, and the model follows the code:
- Registration answers one combined 400 for a taken email or username. It
  does not give a separate reason per field.
- Registration does not reject empty fields.
- SMS recovery for a row with no phone number answers 400 after the new
  code is committed.
- A failed SMS send raises, so Flask answers 500 with the code still
  committed. A failed email send is swallowed and the reply is 200.

## Model

| member | source | states |
|---|---|---|
| Codigo.Generate | Utils/codigo.py:4-6 | every generated code has exactly 6 characters, each an ASCII letter or a decimal digit |
| Codigo.AlphabetIsLettersAndDigits | Utils/codigo.py:6 | the alphabet has 62 symbols with no repeats, and a character is in it exactly when it is an ASCII letter or digit |
| Codigo.AlphabetLiteral | Utils/codigo.py:6 | the alphabet is `ascii_letters + digits` in Python's order: lower case, then upper case, then digits |
| Codigo.GenerateRange | Utils/codigo.py:6 | the possible outputs are exactly the 6-symbol alphanumeric strings: nothing else can be produced, and every such string can be |
| Codigo.GenerateInjective | Utils/codigo.py:6 | different draws give different codes, so each code has one way of being drawn |
| Codigo.DrawsOf | Utils/codigo.py:6 | for every well-formed code, there are draws that generate it |
| Codigo.DrawsOfGenerate | Utils/codigo.py:6 | reading a generated code back gives the draws that produced it |
| Accounts.EmptyIsValid | app.py:159-161 | the freshly created table satisfies the invariant |
| Accounts.First | app.py:44 | `first()` returns a row matching the filter, and it returns none exactly when no row matches |
| Accounts.FirstIsTheMatch | app.py:44 | when only one row can match, `first()` returns that row |
| App.Register | app.py:22-39 | the reply is 400 exactly when some row already has the email or the username. The store is then unchanged. Otherwise the reply is 201 |
| App.RegisterAddsOne | app.py:28-37 | a successful registration adds one row under a fresh id. The row has the submitted fields, the hash of the password and no pending code. Every existing row is unchanged |
| App.Login | app.py:41-47 | the reply is either 200 or one single 401, so an unknown user and a wrong password cannot be told apart. A 200 means some row has the username and its digest checks against the password |
| App.LoginSucceedsIff | app.py:44-46 | with unique usernames, login succeeds exactly when a row has the username and its digest is the hash of the password |
| App.FindByEmail | app.py:56 | the lookup finds a row with exactly that email. It finds none exactly when the email is missing or belongs to no row |
| App.Recover | app.py:49-87 | an unknown or missing method gives 400 and an unregistered email gives 404, both with no change and nothing sent. The reply is 200 exactly when the lookup succeeds and either a non-empty email was given or an SMS went to a row with a phone. A 200 by email hands the channel a mail to the requested address with the row's names and the new code. SMS to a row with a phone hands the channel that phone and a text with the first name and the new code. An empty email gives 400 with nothing sent, and a failed SMS send gives 500. The fall-through at line 87 is never reached |
| App.RecoverIssuesCode | app.py:56-62 | once the method is valid and the email is found, that row's pending code becomes the generated code, whatever the reply. Nothing else in the store changes |
| App.RecoverSmsWithoutPhone | app.py:79-81 | SMS recovery for a row without a phone number replies 400 and sends nothing, but the new code stays committed |
| App.ResetPasswordAsWritten | app.py:89-100 | the reset succeeds exactly when a row matches both the email and the submitted code, where a `null` code matches a row with no pending code. On success the matched row gets the new password's hash and no code, and every other row is unchanged. On failure it replies 404 with no change |
| App.NullCodeResetsAsWritten | app.py:92-98 | as written, a `null` code resets the password of a row that has no pending code. That row gets the new password's hash, and no other row changes |
| App.ResetPassword | app.py:92-100 | the intended reset succeeds exactly when a row has this email and this code pending. Otherwise it replies 404 with no change. For a string code it behaves exactly as the code as written |
| App.ResetRedeemsCode | app.py:96-98 | a successful reset changes only the matched row: its digest becomes the hash of the new password and its code is cleared |
| App.GetUsers | app.py:102-115 | the listing has one public view per row, in strictly ascending id order. Each view carries the row's id, email, names, username and phone |
| App.GetUsersHidesSecrets | app.py:105-114 | two stores that differ only in digests and recovery codes produce identical listings |
| App.ApplyUpdate | app.py:134-144 | each field in the request is overwritten and each absent field keeps its value. A supplied password is stored only as its hash. The pending code is untouched |
| App.UpdateUser | app.py:117-147 | an unknown id gives 404 with no change. A 400 comes exactly when another row already has the requested email or username, and it writes nothing. An email clash is reported before a username clash. An existing id with no clash gets 200, and only this row changes, by the partial update |
| App.DeleteUser | app.py:149-157 | an unknown id gives 404 with no change. Otherwise exactly that row is removed and every other row is unchanged |
| Lifecycle.RegisterPreservesValid | app.py:25-37 | registration keeps emails unique, usernames unique and pending codes well-formed |
| Lifecycle.RecoverPreservesValid | app.py:56-62 | recovery keeps the invariant, and the stored code is one the generator can return |
| Lifecycle.ResetAsWrittenPreservesValid | app.py:92-98 | the reset as written, `null` code included, keeps the invariant |
| Lifecycle.ResetPreservesValid | app.py:92-100 | the intended reset keeps the invariant |
| Lifecycle.UpdatePreservesValid | app.py:124-146 | a profile update keeps emails and usernames unique. A row may keep its own email and username because the checks exclude its own id |
| Lifecycle.DeletePreservesValid | app.py:151-156 | a delete keeps the invariant |
| Lifecycle.Handle | app.py:22-157 | routes each request to its handler, with /reset-password going to the reset as written. The login and listing routes commit nothing |
| Lifecycle.RunPreservesValid | app.py:22-157 | any sequence of requests to the handlers as written keeps the invariant |
| Lifecycle.ReachableStoresAreUnique | app.py:22-157 | from the empty table, no sequence of requests ever leaves two rows with the same email or the same username |
| Lifecycle.RecoverResetLogin | app.py:49-100 | after recover and then reset with the issued code, the reset returns 200 and the code is cleared. The new password logs in, and any password with a different hash does not. The same code is then refused with 404 |
| Lifecycle.SecondRecoverSupersedesFirst | app.py:60-62 | after two recovery requests, the first code redeems exactly when both requests drew the same code |
| Lifecycle.UpdateIsIdempotent | app.py:124-146 | repeating a successful update returns 200 and changes no row but this one. In this row, only a supplied password is re-hashed, and the new digest still checks against it |
| Lifecycle.DeleteFreesIdentity | app.py:149-157 | after a delete, the email and username of the deleted row can be registered again |
| Lifecycle.AliceScenario | app.py:22-100 | a concrete run. Alice registers. Bob is refused her email. Alice gets a code by mail and resets with it. Afterwards only the new password logs in |

## Left out

- Flask routing, JSON parsing, CORS and server start-up (app.py:1-20 and 159-162) are not modelled. A request carries every key its handler reads with `[]`, so the `KeyError` a missing key raises is not modelled.
- JSON values of the wrong type are not modelled. Neither is `null` in a field the model keeps as a string, such as a `null` email at registration.
- `models/Users.py` is not part of this model. New rows are assumed to start with no recovery code. Database unique constraints are not modelled, and uniqueness rests on the handlers' own checks.
- SQLAlchemy session mechanics are not modelled. A handler that returns before its commit writes nothing.
- Email, username and recovery-code comparisons are exact. This is a choice of the model, not what the code does. The SQL `=` at app.py:25, 44, 56, 92, 125 and 130 follows the column's collation. A case-insensitive MySQL collation would compare them differently, so for example a stored code `AAAAAA` would also match `aaaaaa`.
- Lifecycle.SecondRecoverSupersedesFirst: its "exactly when both requests drew the same code" rests on an exact comparison of codes. Under a case-insensitive collation the first code also redeems when the two codes differ only in letter case.
- Accounts.First: `first()` without ORDER BY may return any matching row; the model takes the least id. Under the invariant at most one row matches, so this choice never shows.
- App.GetUsers: `query.all()` has no defined order; the model lists rows by ascending id.
- Password hashing internals are not modelled. `hash` is a deterministic parameter, while the real digests are salted and only checked.
- Sending email and SMS is not modelled; `Utils/email_sender.py` and `Utils/sms_sender.py` do network I/O. The message handed to the channel is returned as a `Delivery` value. The SMS outcome is an input.
- Reading the mail template file and substituting its placeholders (app.py:68-74) is file I/O and is not modelled. The `Delivery` keeps the substituted first name, last name and code.
- `config.py` only reads environment variables and is not modelled.
- The random distribution, code uniqueness across accounts and code expiry are not modelled. None is enforced in the source.
- Races between concurrent requests are not modelled; the model is sequential.

## Findings

| source | as written | input that shows it | evidently intended | confidence | as-written member | corrected member |
|---|---|---|---|---|---|---|
| app.py:92 | `filter_by(email=..., recovery_code=data['recovery_code'])` with a JSON `null` code compiles to `recovery_code IS NULL`. It matches any row with no pending code. | `{"email": <a registered email with no pending code>, "recovery_code": null, "new_password": "x"}` returns 200 and sets the password, though no recovery was requested | only a pending code redeems, so a `null` code is refused with 404 | medium (relies on SQLAlchemy turning `== None` into `IS NULL`); not executed | App.ResetPasswordAsWritten, App.NullCodeResetsAsWritten | App.ResetPassword |

=== FILE: accounts.dfy ===
/** The account table behind app.py: the `User` rows, the store they live in,
    the uniqueness invariant, and the row lookups the handlers issue.

    The password-hashing capability (User.set_password / User.check_password)
    is left uninterpreted: every member that hashes takes `hash` as a
    parameter and a digest checks against a plaintext exactly when it is that
    plaintext's hash. */
module Accounts {
  import opened Wrappers
  import Codigo

  /** What the hashing capability stores in place of a password. */
  type Digest = string

  /** The hashing capability, as a parameter. */
  type Hasher = string -> Digest

  /** User.check_password: the digest was made from this plaintext. */
  predicate CheckPassword(hash: Hasher, plaintext: string, digest: Digest) {
    digest == hash(plaintext)
  }

  /** One `User` row. `phone` and `recoveryCode` are nullable columns;
      the plaintext password is never part of it. */
  datatype Account = Account(
    email: string,
    firstName: string,
    lastName: string,
    username: string,
    phone: Option<string>,
    digest: Digest,
    recoveryCode: Option<string>)
  {
    /** Python's `not user.phone_number`: a null or empty phone number. */
    predicate HasPhone() {
      phone.Some? && phone.value != ""
    }
  }

  /** The table: rows by id, and the next id the database's auto-increment
      counter hands out. The counter starts at 1 and is modelled as never
      going back (older MySQL servers could rebuild it as the largest id
      plus one on restart). */
  datatype Store = Store(accounts: map<nat, Account>, nextId: nat)

  const Empty: Store := Store(map[], 1)

  /** Every row's id was handed out by the counter. */
  ghost predicate IdsIssued(s: Store) {
    forall id :: id in s.accounts ==> id < s.nextId
  }

  ghost predicate EmailsUnique(accounts: map<nat, Account>) {
    forall i, j :: i in accounts && j in accounts && accounts[i].email == accounts[j].email ==> i == j
  }

  ghost predicate UsernamesUnique(accounts: map<nat, Account>) {
    forall i, j :: i in accounts && j in accounts && accounts[i].username == accounts[j].username ==> i == j
  }

  /** A pending recovery code is always something the generator can return. */
  ghost predicate PendingCodesWellFormed(accounts: map<nat, Account>) {
    forall id :: id in accounts && accounts[id].recoveryCode.Some? ==> Codigo.IsRecoveryCode(accounts[id].recoveryCode.value)
  }

  /** The invariant every reachable store keeps. */
  ghost predicate Valid(s: Store) {
    && IdsIssued(s)
    && EmailsUnique(s.accounts)
    && UsernamesUnique(s.accounts)
    && PendingCodesWellFormed(s.accounts)
  }

  lemma EmptyIsValid()
    ensures Valid(Empty)
  {
  }

  /** Some row other than `self` has this email (app.py's
      `User.email == e, User.id != user_id` query). Register passes no `self`. */
  predicate EmailTaken(accounts: map<nat, Account>, email: string, self: Option<nat>) {
    exists id :: id in accounts && Some(id) != self && accounts[id].email == email
  }

  predicate UsernameTaken(accounts: map<nat, Account>, username: string, self: Option<nat>) {
    exists id :: id in accounts && Some(id) != self && accounts[id].username == username
  }

  /** The least element of a non-empty set of ids. */
  function Least(ids: set<nat>): (m: nat)
    requires ids != {}
    ensures m in ids && forall x :: x in ids ==> m <= x
  {
    LeastExists(ids);
    var m :| m in ids && forall x :: x in ids ==> m <= x;
    m
  }

  lemma {:induction false} LeastExists(ids: set<nat>)
    requires ids != {}
    ensures exists m :: m in ids && forall x :: x in ids ==> m <= x
    decreases ids
  {
    var y :| y in ids;
    if ids != {y} {
      LeastExists(ids - {y});
      var m :| m in ids - {y} && forall x :: x in ids - {y} ==> m <= x;
      var least := if y < m then y else m;
      forall x | x in ids
        ensures least <= x
      {
        if x != y {
          assert x in ids - {y};
        }
      }
      assert least in ids;
    } else {
      assert forall x :: x in ids ==> y <= x;
    }
  }

  /** `User.query.filter_by(...).first()`: the row matching `p`, if any.
      SQL without ORDER BY may return any matching row; the model takes the
      least id. Under the uniqueness invariant at most one row matches, so
      the choice never shows (see FirstIsTheMatch). */
  function First(accounts: map<nat, Account>, p: Account -> bool): (r: Option<nat>)
    ensures r.Some? ==> r.value in accounts && p(accounts[r.value])
    ensures r.Some? ==> forall id :: id in accounts && p(accounts[id]) ==> r.value <= id
    ensures r.None? <==> forall id :: id in accounts ==> !p(accounts[id])
  {
    var ids := set id | id in accounts.Keys && p(accounts[id]);
    assert forall id :: id in accounts && p(accounts[id]) ==> id in ids;
    if ids == {} then None else Some(Least(ids))
  }

  /** When only one row can match, `first()` returns that row. */
  lemma FirstIsTheMatch(accounts: map<nat, Account>, p: Account -> bool, id: nat)
    requires id in accounts && p(accounts[id])
    requires forall j :: j in accounts && p(accounts[j]) ==> j == id
    ensures First(accounts, p) == Some(id)
  {
  }

  function ByEmail(email: string): Account -> bool {
    (a: Account) => a.email == email
  }

  function ByUsername(username: string): Account -> bool {
    (a: Account) => a.username == username
  }

  /** `filter_by(email=..., recovery_code=...)`. A JSON `null` code compiles
      to `recovery_code IS NULL`, so `None` matches rows with no pending code. */
  function ByEmailAndCode(email: string, code: Option<string>): Account -> bool {
    (a: Account) => a.email == email && a.recoveryCode == code
  }

  /** Two stores that differ at most in the row at `id`. */
  ghost predicate OthersUnchanged(s: Store, s': Store, id: nat) {
    && s'.nextId == s.nextId
    && s'.accounts.Keys == s.accounts.Keys
    && forall j :: j in s.accounts && j != id ==> s'.accounts[j] == s.accounts[j]
  }
}

=== FILE: app.dfy ===
/** The request handlers of app.py, each a pure transition from a store and a
    request to a reply and the store the handler commits.

    Flask routing and JSON parsing are not modelled: a request is a record
    with every key the handler reads. A key the handler tests for with `in`
    or reads with `.get` is an `Option` (`None` = absent); a JSON `null`
    where the handler compares against a nullable column is an `Option` too.
    A handler that returns before `db.session.commit()` commits nothing, so
    its store is the one it was given. */
module App {
  import opened Wrappers
  import Codigo
  import opened Accounts

  /** GET /users: the fields of a row that the listing returns. There is no
      field for the digest or the recovery code. */
  datatype PublicView = PublicView(
    id: nat,
    email: string,
    firstName: string,
    lastName: string,
    username: string,
    phone: Option<string>)

  /** The message each `jsonify` reply carries, one per return statement. */
  datatype Msg =
    | Registered
    | AlreadyRegistered
    | LoginOk
    | BadCredentials
    | InvalidMethod
    | EmailNotRegistered
    | MissingEmail
    | CodeSentByEmail
    | NoPhone
    | CodeSentBySms
    | SmsFailed
    | FallbackInvalidMethod
    | InvalidCode
    | PasswordReset
    | UserList(views: seq<PublicView>)
    | UserNotFound
    | EmailInUse
    | UsernameInUse
    | UserUpdated
    | UserDeleted(id: nat)

  datatype Reply = Reply(status: int, msg: Msg)

  /** A handler's reply and the store it leaves behind. */
  datatype Step = Step(reply: Reply, store: Store)

  // ---------------------------------------------------------------- register

  /** POST /register. `phone_number` must be sent but may be `null`. */
  datatype RegisterRequest = RegisterRequest(
    email: string,
    username: string,
    firstName: string,
    lastName: string,
    password: string,
    phone: Option<string>)

  /** The row a successful registration inserts: no pending recovery code. */
  function NewAccount(hash: Hasher, req: RegisterRequest): Account {
    Account(req.email, req.firstName, req.lastName, req.username, req.phone, hash(req.password), None)
  }

  /** app.py:22-39. */
  function Register(hash: Hasher, s: Store, req: RegisterRequest): (r: Step)
    ensures r.reply.status == 400 <==> EmailTaken(s.accounts, req.email, None) || UsernameTaken(s.accounts, req.username, None)
    ensures r.reply.status == 400 ==> r == Step(Reply(400, AlreadyRegistered), s)
    ensures r.reply.status != 400 ==> r.reply == Reply(201, Registered)
  {
    if EmailTaken(s.accounts, req.email, None) || UsernameTaken(s.accounts, req.username, None) then
      Step(Reply(400, AlreadyRegistered), s)
    else
      Step(Reply(201, Registered), Store(s.accounts[s.nextId := NewAccount(hash, req)], s.nextId + 1))
  }

  /** A successful registration inserts one row under a fresh id, carrying
      the submitted fields and the hash of the password, and leaves every
      existing row as it was. */
  lemma RegisterAddsOne(hash: Hasher, s: Store, req: RegisterRequest)
    requires IdsIssued(s)
    requires !EmailTaken(s.accounts, req.email, None) && !UsernameTaken(s.accounts, req.username, None)
    ensures var r := Register(hash, s, req);
      exists id ::
        && id !in s.accounts
        && r.store.accounts.Keys == s.accounts.Keys + {id}
        && var a := r.store.accounts[id];
        && a.email == req.email && a.username == req.username
        && a.firstName == req.firstName && a.lastName == req.lastName && a.phone == req.phone
        && CheckPassword(hash, req.password, a.digest)
        && a.recoveryCode.None?
        && forall j :: j in s.accounts ==> r.store.accounts[j] == s.accounts[j]
  {
    var r := Register(hash, s, req);
    assert s.nextId !in s.accounts;
    assert r.store.accounts == s.accounts[s.nextId := NewAccount(hash, req)];
  }

  // ------------------------------------------------------------------- login

  /** POST /login, app.py:41-47. It reads the store and writes nothing. An
      unknown username and a wrong password get the very same reply. */
  function Login(hash: Hasher, s: Store, username: string, password: string): (r: Reply)
    ensures r == Reply(200, LoginOk) || r == Reply(401, BadCredentials)
    ensures r.status == 200 ==>
      exists id :: id in s.accounts && s.accounts[id].username == username && CheckPassword(hash, password, s.accounts[id].digest)
  {
    match First(s.accounts, ByUsername(username))
    case None => Reply(401, BadCredentials)
    case Some(id) =>
      if CheckPassword(hash, password, s.accounts[id].digest) then Reply(200, LoginOk) else Reply(401, BadCredentials)
  }

  /** With usernames unique, login succeeds exactly when some row has the
      username and its digest checks against the password. */
  lemma LoginSucceedsIff(hash: Hasher, s: Store, username: string, password: string)
    requires UsernamesUnique(s.accounts)
    ensures Login(hash, s, username, password).status == 200 <==>
      exists id :: id in s.accounts && s.accounts[id].username == username && CheckPassword(hash, password, s.accounts[id].digest)
  {
    if id :| id in s.accounts && s.accounts[id].username == username && CheckPassword(hash, password, s.accounts[id].digest) {
      FirstIsTheMatch(s.accounts, ByUsername(username), id);
    }
  }

  // ----------------------------------------------------------------- recover

  /** POST /recover. `email` is read with `.get`; `channel` is the `method`
      key, which is tested with `in`. */
  datatype RecoverRequest = RecoverRequest(email: Option<string>, channel: Option<string>)

  /** The message handed to a delivery channel. The mail body is a template
      file with three placeholders; the model keeps what is substituted. */
  datatype Delivery =
    | NoDelivery
    | Mail(recipient: string, subject: string, firstName: string, lastName: string, code: string)
    | Text(phone: string, body: string)

  datatype RecoverStep = RecoverStep(reply: Reply, store: Store, delivery: Delivery)

  predicate KnownMethod(channel: Option<string>) {
    channel.Some? && (channel.value == "email" || channel.value == "sms")
  }

  const MailSubject: string := "Código de recuperación"

  /** The SMS text: a greeting with the first name, then the code. */
  function SmsBody(firstName: string, code: string): string {
    "Hola " + firstName + ", tu código de recuperación es: " + code
  }

  /** The row `filter_by(email=data.get('email')).first()` finds. A missing
      email compiles to `email IS NULL`, which no row matches. */
  function FindByEmail(s: Store, email: Option<string>): (r: Option<nat>)
    ensures r.Some? ==> email.Some? && r.value in s.accounts && s.accounts[r.value].email == email.value
    ensures r.None? <==> email.None? || !EmailTaken(s.accounts, email.value, None)
  {
    if email.None? then None else First(s.accounts, ByEmail(email.value))
  }

  /** The store after writing `code` into row `id` and nothing else. */
  function WithCode(s: Store, id: nat, code: string): Store
    requires id in s.accounts
  {
    s.(accounts := s.accounts[id := s.accounts[id].(recoveryCode := Some(code))])
  }

  /** app.py:49-87, the random source given as the generator's draws and the
      outcome of the SMS call as `smsDelivered` (send_sms raises on failure,
      which Flask answers with a 500; send_email swallows its errors). */
  function Recover(s: Store, req: RecoverRequest, draws: Codigo.Draws, smsDelivered: bool): (r: RecoverStep)
    ensures r.reply.msg != FallbackInvalidMethod
    ensures !KnownMethod(req.channel) ==> r == RecoverStep(Reply(400, InvalidMethod), s, NoDelivery)
    ensures KnownMethod(req.channel) && FindByEmail(s, req.email).None? ==>
      r == RecoverStep(Reply(404, EmailNotRegistered), s, NoDelivery)
    ensures r.reply.status == 200 <==>
      && KnownMethod(req.channel)
      && FindByEmail(s, req.email).Some?
      && (if req.channel.value == "email" then req.email.value != ""
          else s.accounts[FindByEmail(s, req.email).value].HasPhone() && smsDelivered)
    ensures (&& req.channel == Some("email")
             && FindByEmail(s, req.email).Some?
             && req.email.value == "") ==>
      r.reply == Reply(400, MissingEmail) && r.delivery == NoDelivery
    ensures (&& req.channel == Some("sms")
             && FindByEmail(s, req.email).Some?
             && s.accounts[FindByEmail(s, req.email).value].HasPhone()
             && !smsDelivered) ==>
      r.reply == Reply(500, SmsFailed)
    ensures r.reply.status == 200 && req.channel == Some("email") ==>
      && FindByEmail(s, req.email).Some?
      && var a := s.accounts[FindByEmail(s, req.email).value];
      r.delivery == Mail(req.email.value, MailSubject, a.firstName, a.lastName, Codigo.Generate(draws))
    ensures (&& req.channel == Some("sms")
             && FindByEmail(s, req.email).Some?
             && s.accounts[FindByEmail(s, req.email).value].HasPhone()) ==>
      && var a := s.accounts[FindByEmail(s, req.email).value];
      r.delivery == Text(a.phone.value, SmsBody(a.firstName, Codigo.Generate(draws)))
  {
    if !KnownMethod(req.channel) then
      RecoverStep(Reply(400, InvalidMethod), s, NoDelivery)
    else
      match FindByEmail(s, req.email)
      case None => RecoverStep(Reply(404, EmailNotRegistered), s, NoDelivery)
      case Some(id) =>
        var user := s.accounts[id];
        var code := Codigo.Generate(draws);
        var s' := WithCode(s, id, code);
        if req.channel.value == "email" then
          if req.email.None? || req.email.value == "" then
            RecoverStep(Reply(400, MissingEmail), s', NoDelivery)
          else
            RecoverStep(Reply(200, CodeSentByEmail), s', Mail(req.email.value, MailSubject, user.firstName, user.lastName, code))
        else if req.channel.value == "sms" then
          if !user.HasPhone() then
            RecoverStep(Reply(400, NoPhone), s', NoDelivery)
          else if smsDelivered then
            RecoverStep(Reply(200, CodeSentBySms), s', Text(user.phone.value, SmsBody(user.firstName, code)))
          else
            RecoverStep(Reply(500, SmsFailed), s', Text(user.phone.value, SmsBody(user.firstName, code)))
        else
          RecoverStep(Reply(400, FallbackInvalidMethod), s', NoDelivery)
  }

  /** Once the method is known and the email belongs to a row, that row's
      pending code is replaced by the freshly generated one, whatever the
      reply, and nothing else in the store changes. */
  lemma RecoverIssuesCode(s: Store, req: RecoverRequest, draws: Codigo.Draws, smsDelivered: bool, id: nat)
    requires EmailsUnique(s.accounts)
    requires KnownMethod(req.channel)
    requires id in s.accounts && req.email == Some(s.accounts[id].email)
    ensures var r := Recover(s, req, draws, smsDelivered);
      && OthersUnchanged(s, r.store, id)
      && r.store.accounts[id] == s.accounts[id].(recoveryCode := Some(Codigo.Generate(draws)))
  {
    FirstIsTheMatch(s.accounts, ByEmail(s.accounts[id].email), id);
  }

  /** SMS recovery for a row with no phone number is refused with 400, yet
      the new code has already been committed and nothing is sent. */
  lemma RecoverSmsWithoutPhone(s: Store, email: string, draws: Codigo.Draws, smsDelivered: bool, id: nat)
    requires EmailsUnique(s.accounts)
    requires id in s.accounts && s.accounts[id].email == email && !s.accounts[id].HasPhone()
    ensures var r := Recover(s, RecoverRequest(Some(email), Some("sms")), draws, smsDelivered);
      && r.reply == Reply(400, NoPhone)
      && r.delivery == NoDelivery
      && r.store.accounts[id].recoveryCode == Some(Codigo.Generate(draws))
  {
    FirstIsTheMatch(s.accounts, ByEmail(email), id);
  }

  // ---------------------------------------------------------- reset-password

  /** POST /reset-password. `recovery_code` may arrive as JSON `null`. */
  datatype ResetRequest = ResetRequest(email: string, code: Option<string>, newPassword: string)

  /** The row after a redeemed reset: new digest, no pending code. */
  function Redeemed(hash: Hasher, a: Account, newPassword: string): Account {
    a.(digest := hash(newPassword), recoveryCode := None)
  }

  /** app.py:89-100 as written: the lookup compares the stored code with the
      submitted one, and a `null` code matches rows with no pending code. */
  function ResetPasswordAsWritten(hash: Hasher, s: Store, req: ResetRequest): (r: Step)
    ensures r.reply.status == 200 <==>
      exists id :: id in s.accounts && s.accounts[id].email == req.email && s.accounts[id].recoveryCode == req.code
    ensures r.reply.status != 200 ==> r == Step(Reply(404, InvalidCode), s)
    ensures r.reply.status == 200 ==>
      exists id :: && id in s.accounts
                   && s.accounts[id].email == req.email
                   && s.accounts[id].recoveryCode == req.code
                   && OthersUnchanged(s, r.store, id)
                   && r.store.accounts[id] == Redeemed(hash, s.accounts[id], req.newPassword)
  {
    match First(s.accounts, ByEmailAndCode(req.email, req.code))
    case None => Step(Reply(404, InvalidCode), s)
    case Some(id) =>
      Step(Reply(200, PasswordReset), s.(accounts := s.accounts[id := Redeemed(hash, s.accounts[id], req.newPassword)]))
  }

  /** A `null` code resets the password of any row with no pending code:
      no recovery was ever requested, yet the new password takes effect. */
  lemma NullCodeResetsAsWritten(hash: Hasher, s: Store, id: nat, newPassword: string)
    requires EmailsUnique(s.accounts)
    requires id in s.accounts && s.accounts[id].recoveryCode.None?
    ensures var r := ResetPasswordAsWritten(hash, s, ResetRequest(s.accounts[id].email, None, newPassword));
      && r.reply.status == 200
      && id in r.store.accounts
      && CheckPassword(hash, newPassword, r.store.accounts[id].digest)
      && r.store.accounts[id] == Redeemed(hash, s.accounts[id], newPassword)
      && OthersUnchanged(s, r.store, id)
  {
    FirstIsTheMatch(s.accounts, ByEmailAndCode(s.accounts[id].email, None), id);
  }

  /** The reset as intended: only a pending code can be redeemed. */
  function ResetPassword(hash: Hasher, s: Store, req: ResetRequest): (r: Step)
    ensures r.reply.status == 200 <==>
      exists id :: id in s.accounts && s.accounts[id].email == req.email
        && s.accounts[id].recoveryCode.Some? && s.accounts[id].recoveryCode == req.code
    ensures r.reply.status != 200 ==> r == Step(Reply(404, InvalidCode), s)
    ensures req.code.Some? ==> r == ResetPasswordAsWritten(hash, s, req)
  {
    if req.code.None? then Step(Reply(404, InvalidCode), s) else ResetPasswordAsWritten(hash, s, req)
  }

  /** A successful reset rewrites exactly the row holding the code: its
      digest becomes the new password's hash and its code is cleared. */
  lemma ResetRedeemsCode(hash: Hasher, s: Store, req: ResetRequest, id: nat)
    requires EmailsUnique(s.accounts)
    requires id in s.accounts && s.accounts[id].email == req.email
    requires req.code.Some? && s.accounts[id].recoveryCode == req.code
    ensures var r := ResetPassword(hash, s, req);
      && r.reply == Reply(200, PasswordReset)
      && OthersUnchanged(s, r.store, id)
      && r.store.accounts[id] == Redeemed(hash, s.accounts[id], req.newPassword)
      && CheckPassword(hash, req.newPassword, r.store.accounts[id].digest)
      && r.store.accounts[id].recoveryCode.None?
  {
    FirstIsTheMatch(s.accounts, ByEmailAndCode(req.email, req.code), id);
  }

  // ------------------------------------------------------------------- users

  function ViewOf(id: nat, a: Account): PublicView {
    PublicView(id, a.email, a.firstName, a.lastName, a.username, a.phone)
  }

  /** The ids of a set in ascending order. */
  function {:induction false} SortedIds(ids: set<nat>): (r: seq<nat>)
    ensures |r| == |ids|
    ensures forall i :: 0 <= i < |r| ==> r[i] in ids
    ensures forall id :: id in ids ==> id in r
    ensures forall i, j :: 0 <= i < j < |r| ==> r[i] < r[j]
    decreases ids
  {
    if ids == {} then []
    else
      var m := Least(ids);
      var rest := SortedIds(ids - {m});
      assert forall id :: id in ids && id != m ==> id in ids - {m};
      [m] + rest
  }

  /** GET /users, app.py:102-115: one public view per row, in ascending id
      order (the query has no ORDER BY; the model fixes one). */
  function GetUsers(s: Store): (r: seq<PublicView>)
    ensures |r| == |s.accounts|
    ensures forall i :: 0 <= i < |r| ==> r[i].id in s.accounts && r[i] == ViewOf(r[i].id, s.accounts[r[i].id])
    ensures forall id :: id in s.accounts ==> exists i :: 0 <= i < |r| && r[i].id == id
    ensures forall i, j :: 0 <= i < j < |r| ==> r[i].id < r[j].id
  {
    var ids := SortedIds(s.accounts.Keys);
    ViewsCover(s.accounts, ids);
    Views(s.accounts, ids)
  }

  /** Every id listed in `ids` has its view in `Views(accounts, ids)`. */
  lemma ViewsCover(accounts: map<nat, Account>, ids: seq<nat>)
    requires forall i :: 0 <= i < |ids| ==> ids[i] in accounts
    ensures forall id :: id in ids ==> exists i :: 0 <= i < |ids| && Views(accounts, ids)[i].id == id
  {
    forall id | id in ids
      ensures exists i :: 0 <= i < |ids| && Views(accounts, ids)[i].id == id
    {
      var i := IndexIn(ids, id);
      assert Views(accounts, ids)[i].id == id;
    }
  }

  /** The views of the rows at `ids`, position by position. */
  function Views(accounts: map<nat, Account>, ids: seq<nat>): (r: seq<PublicView>)
    requires forall i :: 0 <= i < |ids| ==> ids[i] in accounts
    ensures |r| == |ids|
    ensures forall i :: 0 <= i < |r| ==> r[i] == ViewOf(ids[i], accounts[ids[i]])
  {
    seq(|ids|, i requires 0 <= i < |ids| => ViewOf(ids[i], accounts[ids[i]]))
  }

  /** The position of `x` in a sequence that contains it. */
  function IndexIn(xs: seq<nat>, x: nat): (i: nat)
    requires x in xs
    ensures i < |xs| && xs[i] == x
  {
    if xs[0] == x then 0 else 1 + IndexIn(xs[1..], x)
  }

  /** Two stores whose rows differ only in digests and recovery codes. */
  ghost predicate SameExceptSecrets(s: Store, s': Store) {
    && s.accounts.Keys == s'.accounts.Keys
    && forall id :: id in s.accounts ==>
      && s'.accounts[id].email == s.accounts[id].email
      && s'.accounts[id].firstName == s.accounts[id].firstName
      && s'.accounts[id].lastName == s.accounts[id].lastName
      && s'.accounts[id].username == s.accounts[id].username
      && s'.accounts[id].phone == s.accounts[id].phone
  }

  /** The listing reveals nothing about digests or recovery codes: stores
      that differ only there are listed identically. */
  lemma GetUsersHidesSecrets(s: Store, s': Store)
    requires SameExceptSecrets(s, s')
    ensures GetUsers(s) == GetUsers(s')
  {
    var ids := SortedIds(s.accounts.Keys);
    assert SortedIds(s'.accounts.Keys) == ids;
    var r, r' := Views(s.accounts, ids), Views(s'.accounts, ids);
    forall i | 0 <= i < |ids|
      ensures r[i] == r'[i]
    {
    }
    assert r == r';
    assert GetUsers(s) == r;
    assert GetUsers(s') == r';
  }

  // ------------------------------------------------------------- update-user

  /** PUT /update-user/<id>: every key is optional. A present `phone_number`
      may be JSON `null`. */
  datatype UpdateRequest = UpdateRequest(
    email: Option<string>,
    username: Option<string>,
    firstName: Option<string>,
    lastName: Option<string>,
    phone: Option<Option<string>>,
    password: Option<string>)

  /** app.py:124-144 once both uniqueness checks have passed: a field the
      request carries is overwritten, any other keeps its value; a password
      is kept only as its hash; the pending code is untouched. */
  function ApplyUpdate(hash: Hasher, a: Account, req: UpdateRequest): (b: Account)
    ensures req.email.None? ==> b.email == a.email
    ensures req.email.Some? ==> b.email == req.email.value
    ensures req.username.None? ==> b.username == a.username
    ensures req.username.Some? ==> b.username == req.username.value
    ensures req.firstName.None? ==> b.firstName == a.firstName
    ensures req.firstName.Some? ==> b.firstName == req.firstName.value
    ensures req.lastName.None? ==> b.lastName == a.lastName
    ensures req.lastName.Some? ==> b.lastName == req.lastName.value
    ensures req.phone.None? ==> b.phone == a.phone
    ensures req.phone.Some? ==> b.phone == req.phone.value
    ensures req.password.None? ==> b.digest == a.digest
    ensures req.password.Some? ==> CheckPassword(hash, req.password.value, b.digest)
    ensures b.recoveryCode == a.recoveryCode
  {
    Account(
      req.email.GetOr(a.email),
      req.firstName.GetOr(a.firstName),
      req.lastName.GetOr(a.lastName),
      req.username.GetOr(a.username),
      req.phone.GetOr(a.phone),
      if req.password.Some? then hash(req.password.value) else a.digest,
      a.recoveryCode)
  }

  /** app.py:117-147. A conflicting email or username returns before the
      commit, so nothing is written. */
  function UpdateUser(hash: Hasher, s: Store, id: nat, req: UpdateRequest): (r: Step)
    ensures id !in s.accounts ==> r == Step(Reply(404, UserNotFound), s)
    ensures r.reply.status != 200 ==> r.store == s
    ensures r.reply.status == 400 <==>
      (id in s.accounts &&
       ((req.email.Some? && EmailTaken(s.accounts, req.email.value, Some(id))) ||
        (req.username.Some? && UsernameTaken(s.accounts, req.username.value, Some(id)))))
    ensures req.email.Some? && EmailTaken(s.accounts, req.email.value, Some(id)) && id in s.accounts ==>
      r.reply == Reply(400, EmailInUse)
    ensures (&& id in s.accounts
             && !(req.email.Some? && EmailTaken(s.accounts, req.email.value, Some(id)))
             && !(req.username.Some? && UsernameTaken(s.accounts, req.username.value, Some(id)))) ==>
      r.reply == Reply(200, UserUpdated)
    ensures r.reply.status == 200 ==>
      && id in s.accounts
      && OthersUnchanged(s, r.store, id)
      && r.store.accounts[id] == ApplyUpdate(hash, s.accounts[id], req)
  {
    if id !in s.accounts then
      Step(Reply(404, UserNotFound), s)
    else if req.email.Some? && EmailTaken(s.accounts, req.email.value, Some(id)) then
      Step(Reply(400, EmailInUse), s)
    else if req.username.Some? && UsernameTaken(s.accounts, req.username.value, Some(id)) then
      Step(Reply(400, UsernameInUse), s)
    else
      Step(Reply(200, UserUpdated), s.(accounts := s.accounts[id := ApplyUpdate(hash, s.accounts[id], req)]))
  }

  // ------------------------------------------------------------- delete-user

  /** DELETE /delete-user/<id>, app.py:149-157. */
  function DeleteUser(s: Store, id: nat): (r: Step)
    ensures id !in s.accounts ==> r == Step(Reply(404, UserNotFound), s)
    ensures id in s.accounts ==>
      && r.reply == Reply(200, UserDeleted(id))
      && r.store.nextId == s.nextId
      && r.store.accounts.Keys == s.accounts.Keys - {id}
      && forall j :: j in r.store.accounts ==> r.store.accounts[j] == s.accounts[j]
  {
    if id !in s.accounts then Step(Reply(404, UserNotFound), s)
    else Step(Reply(200, UserDeleted(id)), s.(accounts := s.accounts - {id}))
  }
}

=== FILE: codigo.dfy ===
/** The recovery-code generator of Utils/codigo.py.

    The generator joins six symbols picked with replacement from
    `string.ascii_letters + string.digits`. The random source is not modelled:
    `random.choices` turns each of its six draws into an index below the
    alphabet's size, and those six indices are the generator's input here.
    The generator therefore takes no account state and writes none. */
module Codigo {

  const CodeLength: nat := 6

  /** The number of symbols a draw chooses from: 26 + 26 + 10. */
  const AlphabetSize: nat := 62

  /** The `n` consecutive code points starting at `first`. */
  function Span(first: char, n: nat): (s: string)
    requires first as int + n <= 0xD800
    ensures |s| == n && forall i :: 0 <= i < n ==> s[i] as int == first as int + i
  {
    seq(n, i requires 0 <= i < n => (first as int + i) as char)
  }

  /** `string.ascii_lowercase`, `string.ascii_uppercase`, `string.digits`. */
  const Lower: string := Span('a', 26)
  const Upper: string := Span('A', 26)
  const Digits: string := Span('0', 10)

  /** `string.ascii_letters + string.digits`, in that order. */
  const Alphabet: string := Lower + Upper + Digits

  predicate IsAlnum(c: char) {
    'a' <= c <= 'z' || 'A' <= c <= 'Z' || '0' <= c <= '9'
  }

  /** Every string the generator can return: six ASCII letters or digits. */
  predicate IsRecoveryCode(s: string) {
    |s| == CodeLength && forall i :: 0 <= i < |s| ==> IsAlnum(s[i])
  }

  /** What the random source contributes: one alphabet index per symbol. */
  type Draws = d: seq<int> | |d| == CodeLength && forall i :: 0 <= i < |d| ==> 0 <= d[i] < AlphabetSize
    witness [0, 0, 0, 0, 0, 0]

  /** The position of an ASCII letter or digit in `Alphabet`. */
  function IndexOf(c: char): (i: nat)
    requires IsAlnum(c)
    ensures i < AlphabetSize == |Alphabet| && Alphabet[i] == c
  {
    if 'a' <= c <= 'z' then
      assert Alphabet[c as int - 'a' as int] == Lower[c as int - 'a' as int];
      c as int - 'a' as int
    else if 'A' <= c <= 'Z' then
      assert Alphabet[26 + (c as int - 'A' as int)] == Upper[c as int - 'A' as int];
      26 + (c as int - 'A' as int)
    else
      assert Alphabet[52 + (c as int - '0' as int)] == Digits[c as int - '0' as int];
      52 + (c as int - '0' as int)
  }

  /** generate_recovery_code (Utils/codigo.py:4-6), given its six draws. */
  function Generate(d: Draws): (code: string)
    ensures IsRecoveryCode(code)
  {
    forall i | 0 <= i < CodeLength
      ensures IsAlnum(Alphabet[d[i]])
    {
      IndexOfSymbol(d[i]);
    }
    seq(CodeLength, i requires 0 <= i < CodeLength => Alphabet[d[i]])
  }

  /** The draws that make the generator return `code`. */
  function DrawsOf(code: string): (d: Draws)
    requires IsRecoveryCode(code)
    ensures Generate(d) == code
  {
    seq(CodeLength, i requires 0 <= i < CodeLength => IndexOf(code[i]))
  }

  /** Each symbol sits at exactly one position of the alphabet. */
  lemma IndexOfSymbol(i: int)
    requires 0 <= i < AlphabetSize
    ensures IsAlnum(Alphabet[i]) && IndexOf(Alphabet[i]) == i
  {
    if i < 26 {
      assert Alphabet[i] == Lower[i];
    } else if i < 52 {
      assert Alphabet[i] == Upper[i - 26];
    } else {
      assert Alphabet[i] == Digits[i - 52];
    }
  }

  /** The alphabet is exactly the 62 ASCII letters and digits, each once. */
  lemma AlphabetIsLettersAndDigits()
    ensures |Alphabet| == AlphabetSize == 62
    ensures forall c :: c in Alphabet <==> IsAlnum(c)
    ensures forall i, j :: 0 <= i < j < |Alphabet| ==> Alphabet[i] != Alphabet[j]
  {
    forall c | c in Alphabet
      ensures IsAlnum(c)
    {
      var i :| 0 <= i < |Alphabet| && Alphabet[i] == c;
      IndexOfSymbol(i);
    }
    forall c | IsAlnum(c)
      ensures c in Alphabet
    {
      assert Alphabet[IndexOf(c)] == c;
    }
    forall i, j | 0 <= i < j < |Alphabet|
      ensures Alphabet[i] != Alphabet[j]
    {
      IndexOfSymbol(i);
      IndexOfSymbol(j);
    }
  }

  /** The alphabet spelled out as Python's `string` module spells it. */
  lemma AlphabetLiteral()
    ensures Alphabet == "abcdefghijklmnopqrstuvwxyzABCDEFGHIJKLMNOPQRSTUVWXYZ0123456789"
  {
    assert Lower == "abcdefghijklmnopqrstuvwxyz";
    assert Upper == "ABCDEFGHIJKLMNOPQRSTUVWXYZ";
    assert Digits == "0123456789";
  }

  /** Distinct draws give distinct codes, so each code has exactly one way of
      being drawn and a uniform draw of each symbol makes every code equally
      likely. */
  lemma GenerateInjective(d1: Draws, d2: Draws)
    ensures Generate(d1) == Generate(d2) ==> d1 == d2
  {
    if Generate(d1) == Generate(d2) {
      forall i | 0 <= i < CodeLength
        ensures d1[i] == d2[i]
      {
        assert Generate(d1)[i] == Generate(d2)[i];
        IndexOfSymbol(d1[i]);
        IndexOfSymbol(d2[i]);
      }
    }
  }

  /** The generator's possible outputs are exactly the six-symbol
      alphanumeric strings: nothing else can come out, and each of them can. */
  lemma GenerateRange(code: string)
    ensures IsRecoveryCode(code) <==> exists d: Draws :: Generate(d) == code
  {
    if IsRecoveryCode(code) {
      var d := DrawsOf(code);
      assert Generate(d) == code;
    }
  }

  /** Reading a code back into draws recovers the draws that produced it. */
  lemma DrawsOfGenerate(d: Draws)
    ensures DrawsOf(Generate(d)) == d
  {
    GenerateInjective(DrawsOf(Generate(d)), d);
  }
}

=== FILE: lifecycle.dfy ===
/** The account lifecycle across requests: every handler keeps the store
    invariant (unique emails, unique usernames, well-formed pending codes),
    so every store reachable from the empty table keeps it; and the recovery
    flow completes: recover, then reset with the issued code, then log in
    with the new password, after which the code is spent. */
module Lifecycle {
  import opened Wrappers
  import Codigo
  import opened Accounts
  import opened App

  // ------------------------------------------------ invariant, per handler

  lemma RegisterPreservesValid(hash: Hasher, s: Store, req: RegisterRequest)
    requires Valid(s)
    ensures Valid(Register(hash, s, req).store)
  {
    var r := Register(hash, s, req);
    if r.reply.status != 400 {
      var n := s.nextId;
      assert n !in s.accounts;
      assert r.store.accounts == s.accounts[n := NewAccount(hash, req)];
    }
  }

  lemma RecoverPreservesValid(s: Store, req: RecoverRequest, draws: Codigo.Draws, smsDelivered: bool)
    requires Valid(s)
    ensures Valid(Recover(s, req, draws, smsDelivered).store)
  {
    var found := FindByEmail(s, req.email);
    if KnownMethod(req.channel) && found.Some? {
      RecoverIssuesCode(s, req, draws, smsDelivered, found.value);
    }
  }

  lemma ResetPreservesValid(hash: Hasher, s: Store, req: ResetRequest)
    requires Valid(s)
    ensures Valid(ResetPassword(hash, s, req).store)
  {
    var r := ResetPassword(hash, s, req);
    if r.reply.status == 200 {
      var id :| id in s.accounts && s.accounts[id].email == req.email
        && s.accounts[id].recoveryCode.Some? && s.accounts[id].recoveryCode == req.code;
      ResetRedeemsCode(hash, s, req, id);
    }
  }

  /** The reset as app.py writes it, `null` code included, keeps the
      invariant too: a reset only ever clears a code. */
  lemma ResetAsWrittenPreservesValid(hash: Hasher, s: Store, req: ResetRequest)
    requires Valid(s)
    ensures Valid(ResetPasswordAsWritten(hash, s, req).store)
  {
  }

  lemma UpdatePreservesValid(hash: Hasher, s: Store, id: nat, req: UpdateRequest)
    requires Valid(s)
    ensures Valid(UpdateUser(hash, s, id, req).store)
  {
  }

  lemma DeletePreservesValid(s: Store, id: nat)
    requires Valid(s)
    ensures Valid(DeleteUser(s, id).store)
  {
  }

  // ------------------------------------------------------------ any trace

  /** One request to any route of app.py, with what the handler cannot see
      (the generator's draws, the SMS channel's outcome) supplied. */
  datatype Request =
    | RegisterReq(register: RegisterRequest)
    | LoginReq(username: string, password: string)
    | RecoverReq(recover: RecoverRequest, draws: Codigo.Draws, smsDelivered: bool)
    | ResetReq(reset: ResetRequest)
    | ListReq
    | UpdateReq(id: nat, update: UpdateRequest)
    | DeleteReq(id: nat)

  /** The routing table of app.py: which handler answers the request.
      /reset-password goes to the reset as written, so a trace may use the
      `null`-code reset. Reading routes commit nothing. */
  function Handle(hash: Hasher, s: Store, req: Request): (r: Step)
    ensures req.LoginReq? || req.ListReq? ==> r.store == s
  {
    match req
    case RegisterReq(q) => Register(hash, s, q)
    case LoginReq(u, p) => Step(Login(hash, s, u, p), s)
    case RecoverReq(q, d, ok) =>
      var r := Recover(s, q, d, ok);
      Step(r.reply, r.store)
    case ResetReq(q) => ResetPasswordAsWritten(hash, s, q)
    case ListReq => Step(Reply(200, UserList(GetUsers(s))), s)
    case UpdateReq(id, q) => UpdateUser(hash, s, id, q)
    case DeleteReq(id) => DeleteUser(s, id)
  }

  /** The store after handling `reqs` one after another. */
  function Run(hash: Hasher, s: Store, reqs: seq<Request>): Store
    decreases |reqs|
  {
    if reqs == [] then s else Run(hash, Handle(hash, s, reqs[0]).store, reqs[1..])
  }

  lemma HandlePreservesValid(hash: Hasher, s: Store, req: Request)
    requires Valid(s)
    ensures Valid(Handle(hash, s, req).store)
  {
    match req
    case RegisterReq(q) => RegisterPreservesValid(hash, s, q);
    case LoginReq(_, _) =>
    case RecoverReq(q, d, ok) => RecoverPreservesValid(s, q, d, ok);
    case ResetReq(q) => ResetAsWrittenPreservesValid(hash, s, q);
    case ListReq =>
    case UpdateReq(id, q) => UpdatePreservesValid(hash, s, id, q);
    case DeleteReq(id) => DeletePreservesValid(s, id);
  }

  lemma {:induction false} RunPreservesValid(hash: Hasher, s: Store, reqs: seq<Request>)
    requires Valid(s)
    ensures Valid(Run(hash, s, reqs))
    decreases |reqs|
  {
    if reqs != [] {
      HandlePreservesValid(hash, s, reqs[0]);
      RunPreservesValid(hash, Handle(hash, s, reqs[0]).store, reqs[1..]);
    }
  }

  /** No sequence of requests, starting from the empty table, ever leaves
      two rows with one email or one username. */
  lemma ReachableStoresAreUnique(hash: Hasher, reqs: seq<Request>)
    ensures EmailsUnique(Run(hash, Empty, reqs).accounts)
    ensures UsernamesUnique(Run(hash, Empty, reqs).accounts)
  {
    RunPreservesValid(hash, Empty, reqs);
  }

  // ------------------------------------------------------- recovery flow

  /** Recover, then reset with the code just issued: the reset succeeds, the
      new password logs in, any password hashing differently does not, the
      code is gone, and presenting it again is refused. */
  lemma RecoverResetLogin(hash: Hasher, s: Store, id: nat, channel: string, draws: Codigo.Draws, smsDelivered: bool, newPassword: string, again: string)
    requires Valid(s)
    requires id in s.accounts
    requires channel == "email" || channel == "sms"
    ensures
      var a := s.accounts[id];
      var code := Codigo.Generate(draws);
      var s1 := Recover(s, RecoverRequest(Some(a.email), Some(channel)), draws, smsDelivered).store;
      var r2 := ResetPassword(hash, s1, ResetRequest(a.email, Some(code), newPassword));
      && r2.reply.status == 200
      && id in r2.store.accounts
      && r2.store.accounts[id].recoveryCode.None?
      && Login(hash, r2.store, a.username, newPassword).status == 200
      && (forall p :: hash(p) != hash(newPassword) ==> Login(hash, r2.store, a.username, p).status == 401)
      && ResetPassword(hash, r2.store, ResetRequest(a.email, Some(code), again)).reply.status == 404
  {
    var a := s.accounts[id];
    var code := Codigo.Generate(draws);
    var req1 := RecoverRequest(Some(a.email), Some(channel));
    RecoverIssuesCode(s, req1, draws, smsDelivered, id);
    RecoverPreservesValid(s, req1, draws, smsDelivered);
    var s1 := Recover(s, req1, draws, smsDelivered).store;
    var req2 := ResetRequest(a.email, Some(code), newPassword);
    ResetRedeemsCode(hash, s1, req2, id);
    ResetPreservesValid(hash, s1, req2);
    var s2 := ResetPassword(hash, s1, req2).store;
    assert s2.accounts[id].username == a.username;
    LoginSucceedsIff(hash, s2, a.username, newPassword);
    forall p | hash(p) != hash(newPassword)
      ensures Login(hash, s2, a.username, p).status == 401
    {
      LoginSucceedsIff(hash, s2, a.username, p);
    }
    forall j | j in s2.accounts && s2.accounts[j].email == a.email
      ensures s2.accounts[j].recoveryCode != Some(code)
    {
      assert j == id;
    }
  }

  /** A second recovery request replaces the first code: the first code then
      redeems only if the generator happened to draw the same six symbols. */
  lemma SecondRecoverSupersedesFirst(hash: Hasher, s: Store, id: nat, channel: string, d1: Codigo.Draws, d2: Codigo.Draws, ok1: bool, ok2: bool, newPassword: string)
    requires Valid(s)
    requires id in s.accounts
    requires channel == "email" || channel == "sms"
    ensures
      var req := RecoverRequest(Some(s.accounts[id].email), Some(channel));
      var s1 := Recover(s, req, d1, ok1).store;
      var s2 := Recover(s1, req, d2, ok2).store;
      (ResetPassword(hash, s2, ResetRequest(s.accounts[id].email, Some(Codigo.Generate(d1)), newPassword)).reply.status == 200
       <==> d1 == d2)
  {
    var e := s.accounts[id].email;
    var req := RecoverRequest(Some(e), Some(channel));
    RecoverIssuesCode(s, req, d1, ok1, id);
    RecoverPreservesValid(s, req, d1, ok1);
    var s1 := Recover(s, req, d1, ok1).store;
    RecoverIssuesCode(s1, req, d2, ok2, id);
    var s2 := Recover(s1, req, d2, ok2).store;
    Codigo.GenerateInjective(d1, d2);
    var code := Codigo.Generate(d1);
    forall j | j in s2.accounts && s2.accounts[j].email == e
      ensures j == id
    {
      assert s.accounts[j].email == e;
    }
    if d1 == d2 {
      assert s2.accounts[id].recoveryCode == Some(code);
    }
  }

  // ---------------------------------------------------------- update, delete

  /** Repeating a successful update succeeds again and changes nothing,
      except that a supplied password is hashed afresh: the new digest still
      checks against that password (the real hash is salted, so it need not
      be the same digest). */
  lemma UpdateIsIdempotent(hash: Hasher, s: Store, id: nat, req: UpdateRequest)
    requires UpdateUser(hash, s, id, req).reply.status == 200
    ensures var s1 := UpdateUser(hash, s, id, req).store;
      var r := UpdateUser(hash, s1, id, req);
      && r.reply == Reply(200, UserUpdated)
      && id in s1.accounts
      && OthersUnchanged(s1, r.store, id)
      && r.store.accounts[id].(digest := s1.accounts[id].digest) == s1.accounts[id]
      && (req.password.None? ==> r.store == s1)
      && (req.password.Some? ==> CheckPassword(hash, req.password.value, r.store.accounts[id].digest))
  {
    var s1 := UpdateUser(hash, s, id, req).store;
    assert ApplyUpdate(hash, s1.accounts[id], req) == s1.accounts[id];
    assert s1.accounts[id := s1.accounts[id]] == s1.accounts;
  }

  /** Deleting a row frees its email and username: registering them again
      succeeds. */
  lemma DeleteFreesIdentity(hash: Hasher, s: Store, id: nat, req: RegisterRequest)
    requires Valid(s)
    requires id in s.accounts
    requires req.email == s.accounts[id].email && req.username == s.accounts[id].username
    ensures Register(hash, DeleteUser(s, id).store, req).reply.status == 201
  {
    var s1 := DeleteUser(s, id).store;
  }

  // ---------------------------------------------------------------- scenario

  /** Alice registers; Bob is refused her email; Alice asks for a code by
      mail, resets with it, and then only the new password logs her in. */
  lemma AliceScenario(hash: Hasher, draws: Codigo.Draws)
    requires hash("pw1") != hash("newpw")
    ensures
      var alice := RegisterRequest("a@x.com", "alice", "A", "B", "pw1", None);
      var bob := RegisterRequest("a@x.com", "bob", "C", "D", "pw2", None);
      var code := Codigo.Generate(draws);
      var r1 := Register(hash, Empty, alice);
      var r2 := Register(hash, r1.store, bob);
      var r3 := Recover(r2.store, RecoverRequest(Some("a@x.com"), Some("email")), draws, true);
      var r4 := ResetPassword(hash, r3.store, ResetRequest("a@x.com", Some(code), "newpw"));
      && r1.reply == Reply(201, Registered)
      && r2 == Step(Reply(400, AlreadyRegistered), r1.store)
      && r3.reply == Reply(200, CodeSentByEmail)
      && r3.delivery == Mail("a@x.com", MailSubject, "A", "B", code)
      && r4.reply == Reply(200, PasswordReset)
      && Login(hash, r4.store, "alice", "newpw") == Reply(200, LoginOk)
      && Login(hash, r4.store, "alice", "pw1") == Reply(401, BadCredentials)
  {
    var alice := RegisterRequest("a@x.com", "alice", "A", "B", "pw1", None);
    var s1 := Register(hash, Empty, alice).store;
    assert s1.accounts == map[1 := NewAccount(hash, alice)];
    RegisterPreservesValid(hash, Empty, alice);
    RecoverResetLogin(hash, s1, 1, "email", draws, true, "newpw", "newpw");
    FirstIsTheMatch(s1.accounts, ByEmail("a@x.com"), 1);
  }
}

=== FILE: wrappers.dfy ===
/** A value that may be absent: a JSON key that was not sent, a JSON `null`,
    a nullable column, or a query that found no row. */
module Wrappers {

  datatype Option<+T> = None | Some(value: T) {

    /** The value, or `default` when there is none. */
    function GetOr(default: T): T {
      match this
      case Some(v) => v
      case None => default
    }
  }
}
